=== FILE: README.md ===
# GridRad interpolation bookkeeping in wrf_ens_tools, in Dafny

This project models the pure bookkeeping in `wrf_ens_tools/post/interp_analysis.py`,
the module that interpolates GridRad radar reflectivity onto a WRF grid and builds
reflectivity event grids for verification. It has four parts:

- **Date strings.** `fromDatetime` splits a `datetime` into year, month, day and hour
  strings. The event-grid builder reads a file's `STARTDATE` back by slicing it as
  `YYYYMMDDHH` and calling `int()` and `datetime()` on the pieces. Both are modelled in
  `DateStrings`. The parts of Python they rely on are modelled too: `str()`/`int()` on
  integers in `Decimal`, and `datetime` validity and day ordinals in `Calendar`.
- **Event grid** (`reflectivity_to_eventgrid`, module `EventGrid`). The response window
  is a list of hour offsets from model initialisation. A file counts when its start
  instant is in the window. Each counted file's `refl > threshold` mask is OR-ed into an
  all-false grid shaped like the first file's `XLONG`.
- **Dense volume** (first half of `horiz_interp_and_store_gridrad`, module `Volume`).
  GridRad stores reflectivity sparsely, as values plus flat positions. The model scatters
  them into an all-NaN volume, reshapes it row-major to `(Altitude, Latitude, Longitude)`
  and takes level `zlev`.
- **Output time series** (second half of `horiz_interp_and_store_gridrad`, module
  `TimeSeries`). The output file is created with one time entry or extended by one at
  index `n`. Either way its single `STARTDATE` attribute is overwritten.

Modelling choices:

- Reflectivity cells are `Option<real>`, with `None` for NaN. A NaN cell never exceeds a
  threshold, as numpy's `NaN > t` is false.
- Instants are compared as whole-hour counts since the start of the proleptic Gregorian
  calendar. `Calendar.HourOrdinalInjective` proves this comparison is `datetime` equality
  for valid instants.
- Errors the Python code raises are `Failure` values:
  - `IndexError` for an empty file list;
  - `OverflowError` when a window instant is not a representable `datetime`;
  - `ValueError` for an unreadable `STARTDATE`;
  - `ValueError` from `np.nanmax` on a grid without cells (the event-grid loop prints
    the maximum of every in-window grid, the writer that of the level and of the
    interpolated grid);
  - `IndexError` for a stored position or level outside the volume;
  - whatever the interpolator raises (scipy's `QhullError` on source points that span
    no triangle), as a `None` result of the interpolator parameter.

Two behaviours of the code are easy to misread, and the model follows the code:

- **Six-hour window.** The docstring of `reflectivity_to_eventgrid` (lines 255-256)
  calls `rtime` the end of the time frame, but `range(rtime-5, rtime)` stops at
  `rtime-1`. The window is the five offsets `rtime-5 .. rtime-1`, and the response hour
  itself is outside it (`EventGrid.SixHourWindowExcludesResponseHour`).
- **Empty file list.** `interp_gridradfiles[0]` (line 267) is evaluated before
  anything else, so an empty list raises `IndexError` (`EventGrid.NoFiles`).

## Model

| member | source | states |
|---|---|---|
| Decimal.NatToStringRoundTrip | wrf_ens_tools/post/interp_analysis.py:38 | `str(n)` is a digit string with no leading zero (for `n > 0`) whose decimal value is `n` |
| Decimal.NatToStringLength | wrf_ens_tools/post/interp_analysis.py:40-45 | `len(str(n))` is 1 exactly for single-digit `n`, 2 for 10..99, 3 for 100..999 and 4 for 1000..9999, which is what the one-character test in `fromDatetime` detects |
| Decimal.PyInt | wrf_ens_tools/post/interp_analysis.py:281-282 | `int()` succeeds only on text that is not blank once white space is stripped |
| Decimal.PyIntOfDigits | wrf_ens_tools/post/interp_analysis.py:281-282 | `int()` on a non-empty plain digit string succeeds and yields its decimal value |
| Decimal.PyIntOfNatToString | wrf_ens_tools/post/interp_analysis.py:38 | `int(str(n)) == n` for every natural `n` |
| Calendar.HourOrdinalMonotone | wrf_ens_tools/post/interp_analysis.py:273-276 | a chronologically later `datetime` has a strictly larger hour count, so `init + timedelta(hours=w)` is `w` hours further on |
| Calendar.HourOrdinalInjective | wrf_ens_tools/post/interp_analysis.py:283 | two valid instants have equal hour counts exactly when they are the same `datetime`, so the `in rdates` test can be done on hour counts |
| Calendar.OrdinalRange | wrf_ens_tools/post/interp_analysis.py:273-276 | every valid `datetime` lies on ordinal day `1 .. 3652059`, the range `datetime + timedelta` accepts without `OverflowError` |
| DateStrings.ZeroPad | wrf_ens_tools/post/interp_analysis.py:40-45 | a component below 100 becomes exactly two digits with its value (a leading `"0"` for single digits); from 10 on it is `str(n)` unchanged |
| DateStrings.FromDatetime | wrf_ens_tools/post/interp_analysis.py:32-47 | the year is digits reading back as the year with no leading zero; month and day are two digits with their values; the hour is two digits with its value, followed by `"00"` (length 4) exactly when `interp` is set |
| DateStrings.PySlice | wrf_ens_tools/post/interp_analysis.py:281-282 | Python's `s[i:j]` never has more than `j - i` characters and is the exact slice when `j` is within the string |
| DateStrings.ParseStartDate | wrf_ens_tools/post/interp_analysis.py:280-282 | parsing succeeds only with a valid instant whose four components are what `int()` reads from slices `[:4]`, `[4:6]`, `[6:8]`, `[8:10]`, and it succeeds with any valid instant the slices read as |
| DateStrings.FromDatetimeRoundTrip | wrf_ens_tools/post/interp_analysis.py:38-47 | for a four-digit year, the joined `fromDatetime` strings (with or without the `"00"`) parse back through the `YYYYMMDDHH` slices to the same instant |
| DateStrings.ShortYearBreaksRoundTrip | wrf_ens_tools/post/interp_analysis.py:281 | for any year below 1000 the first slice also takes digits of the month (and beyond), so it reads as at least 1000 and the joined strings never parse back to the original instant |
| DateStrings.RoundTripIffFourDigitYear | wrf_ens_tools/post/interp_analysis.py:38-47 | for a valid instant, formatting with `fromDatetime` and reading back through the slices returns the instant exactly when the year has four digits |
| Volume.Normalize | wrf_ens_tools/post/interp_analysis.py:321 | a numpy index accepted for an axis of length `n` addresses a position in `0 .. n-1`: the index itself when non-negative, and `k mod n` (counting from the end) when negative |
| Volume.Scatter | wrf_ens_tools/post/interp_analysis.py:321 | `flat[index] = values` keeps the length, puts each `values[k]` at the position of `index[k]` and leaves every other position unchanged |
| Volume.DenseVolume | wrf_ens_tools/post/interp_analysis.py:318-321 | fails exactly when some stored position is outside the `nAlt*nLat*nLon` volume; otherwise has that length, holds each stored value at its position and NaN everywhere else |
| Volume.Chunk | wrf_ens_tools/post/interp_analysis.py:322-324 | the reshape to `(n, w)` yields `n` rows of `w` cells each; which buffer element each cell holds is stated by `Volume.ChunkCell`, and that no element is lost or moved by `Volume.ChunkFlatten` |
| Volume.ChunkCell | wrf_ens_tools/post/interp_analysis.py:322-324 | cell `(j, i)` of a row-major reshape to rows of `w` is element `j*w + i` of the buffer |
| Volume.ChunkFlatten | wrf_ens_tools/post/interp_analysis.py:322-324 | flattening the reshaped rows gives the buffer back: reshape moves no data |
| Volume.Reshape3 | wrf_ens_tools/post/interp_analysis.py:322-324 | the reshape to `(nAlt, nLat, nLon)` yields `nAlt` levels, each an `nLat` by `nLon` grid; the contents of each cell are stated by `Volume.Reshape3Cell`, and that no element is lost or moved by `Volume.Reshape3Flatten` |
| Volume.Reshape3Cell | wrf_ens_tools/post/interp_analysis.py:322-324 | cell `(a, j, i)` of the three-dimensional reshape is element `a*nLat*nLon + j*nLon + i` of the buffer |
| Volume.Reshape3Flatten | wrf_ens_tools/post/interp_analysis.py:322-324 | flattening every level and then the levels restores the buffer |
| Volume.ReflectivityLevel | wrf_ens_tools/post/interp_analysis.py:317-325 | a bad stored position fails with `IndexError`; otherwise the slice fails exactly when `zlev` is outside the altitude axis, and succeeds with an `nLat` by `nLon` grid |
| Volume.ReflectivityLevelCell | wrf_ens_tools/post/interp_analysis.py:318-325 | cell `(j, i)` of level `zlev` is element `zlev*nLat*nLon + j*nLon + i` of the dense volume: the stored value for that position, or NaN when none is stored |
| TimeSeries.AppendOrCreate | wrf_ens_tools/post/interp_analysis.py:342-372 | a missing file is created with the entry at time index 0; an existing one grows by exactly one entry at index `n` with entries `0 .. n-1` unchanged; `STARTDATE` becomes the new datehour either way |
| TimeSeries.ReplayFromNothing | wrf_ens_tools/post/interp_analysis.py:342-372 | repeated calls on a fresh path leave one entry per call, in call order, and the last call's datehour as `STARTDATE` |
| TimeSeries.EarlierStartDatesAreLost | wrf_ens_tools/post/interp_analysis.py:349 | the file keeps no per-entry start time: histories with the same entries and the same last datehour give identical files |
| TimeSeries.StoreLevel | wrf_ens_tools/post/interp_analysis.py:326-372 | with the level sliced: `ValueError` exactly when the level has no cells, then an interpolator failure exactly when it raises, then `ValueError` exactly when its grid has no cells; otherwise one entry appended with the interpolated grid, the target coordinates and `zlev`, earlier entries kept and `STARTDATE` set |
| TimeSeries.HorizInterpAndStore | wrf_ens_tools/post/interp_analysis.py:317-372 | fails, writing nothing, with the slice's `IndexError` when the level slice fails; then with `ValueError` exactly when the level has no latitude or no longitude; then exactly when the interpolator raises; then with `ValueError` exactly when the interpolated grid has no cells; otherwise appends one entry holding the interpolated level, the target `XLONG`/`XLAT` and `zlev`, keeps earlier entries, and sets `STARTDATE` to the GridRad datehour |
| TimeSeries.WriterKeepsFirstEntryShaped | wrf_ens_tools/post/interp_analysis.py:350-372 | a write never changes an existing first entry, and a new file's first reflectivity grid has its `XLONG`'s shape when the interpolator returns target-shaped grids, so written files keep the shape the event-grid builder reads |
| EventGrid.ResponseWindow | wrf_ens_tools/post/interp_analysis.py:272-276 | six-hour mode gives exactly the five offsets `rtime-5 .. rtime-1`; one-hour mode gives exactly `rtime` |
| EventGrid.SixHourWindowExcludesResponseHour | wrf_ens_tools/post/interp_analysis.py:273-274 | in six-hour mode `rtime` itself is not in the window while `rtime-5` is |
| EventGrid.AllFalse | wrf_ens_tools/post/interp_analysis.py:269-270 | the accumulator has the requested shape and no cell set |
| EventGrid.ExceedMask | wrf_ens_tools/post/interp_analysis.py:286 | the mask has the grid's shape and a cell is set exactly when it holds a number above the threshold (never for NaN) |
| EventGrid.SetWhere | wrf_ens_tools/post/interp_analysis.py:287 | `agg[refl_mask or agg] = True` keeps the shape, never clears a set cell, and sets a cell exactly when it was set in either grid |
| EventGrid.Aggregate | wrf_ens_tools/post/interp_analysis.py:278-290 | the loop's accumulator has the grid's shape, and a cell is set exactly when some in-window file exceeds the threshold there |
| EventGrid.AggregateCell | wrf_ens_tools/post/interp_analysis.py:278-290 | after the loop a cell is set exactly when some in-window file exceeds the threshold there |
| EventGrid.AggregateOrderIndependent | wrf_ens_tools/post/interp_analysis.py:278-290 | lists holding the same files give the same grid, whatever the order or repetitions |
| EventGrid.AggregateMonotone | wrf_ens_tools/post/interp_analysis.py:287 | appending files never clears a set cell |
| EventGrid.OutOfWindowIgnored | wrf_ens_tools/post/interp_analysis.py:283-290 | inserting a file outside the window anywhere in the list leaves the grid unchanged |
| EventGrid.NoFileInWindow | wrf_ens_tools/post/interp_analysis.py:269-291 | with no file in the window the result is the all-false grid |
| EventGrid.OffsetMatchIsDatetimeEquality | wrf_ens_tools/post/interp_analysis.py:273-283 | a start instant is `w` hours after `init` exactly when it equals the window instant `init + timedelta(hours=w)` |
| EventGrid.ParseAll | wrf_ens_tools/post/interp_analysis.py:278-282 | reading all `STARTDATE`s succeeds exactly when every file's does, and then gives each file's instant, in order |
| EventGrid.Outcome | wrf_ens_tools/post/interp_analysis.py:278-288 | the loop raises at a file for an unreadable `STARTDATE` exactly when `int()`/`datetime()` fail on its slices, and for an empty grid exactly when it is in the window and its reflectivity has no cells |
| EventGrid.FirstStop | wrf_ens_tools/post/interp_analysis.py:278-290 | the loop raises at the first file where it raises at all: every earlier file passes, and with no such file every file passes |
| EventGrid.FirstStopUnreadable | wrf_ens_tools/post/interp_analysis.py:278-290 | the loop ends in the `STARTDATE` `ValueError` exactly when some file's `STARTDATE` fails with no empty in-window grid before it |
| EventGrid.FirstStopEmpty | wrf_ens_tools/post/interp_analysis.py:278-290 | the loop ends in the `np.nanmax` `ValueError` exactly when some in-window file has an empty grid and every earlier `STARTDATE` reads |
| EventGrid.ScanFiles | wrf_ens_tools/post/interp_analysis.py:278-290 | the loop completes exactly when no file makes it raise, and then has read every file's `STARTDATE`; otherwise it raises one of the two `ValueError`s |
| EventGrid.ReflectivityToEventGrid | wrf_ens_tools/post/interp_analysis.py:240-291 | raises for an empty list, then for a window instant out of `datetime` range, each exactly when its condition holds; past those checks, returns a grid exactly when no file makes the loop raise, shaped like the first file's `XLONG` |
| EventGrid.EventGridUnreadable | wrf_ens_tools/post/interp_analysis.py:266-288 | raises `ValueError` for a `STARTDATE` exactly when the list and window checks pass and some file's `STARTDATE` does not read while no earlier file is in the window with an empty grid |
| EventGrid.EventGridEmptyReflectivity | wrf_ens_tools/post/interp_analysis.py:266-285 | raises `ValueError` from `np.nanmax` exactly when the list and window checks pass and some in-window file has a grid without cells while every earlier `STARTDATE` reads |
| EventGrid.ReflectivityToEventGridCell | wrf_ens_tools/post/interp_analysis.py:266-291 | a cell of the returned grid is set exactly when some file whose `STARTDATE` is a window instant has reflectivity strictly above the threshold there |

## Left out

- `bilinear_interp` (lines 49-63) wraps scipy's Delaunay-based `LinearNDInterpolator` in floating point. It is a function parameter of `TimeSeries.HorizInterpAndStore` and is not looked inside: which inputs make it raise, and what shape its grid has, are whatever the parameter says.
- The `-360.` longitude shift and the meshgrid (lines 314-315) only feed that interpolator, so they are not modelled.
- The rest of the module is not part of this model. That covers the RAP interpolation path (`interpRAPtoWRF`: remote fetch, ECEF conversion, float level lookup), plotting, and `subprocess_cmd`. All of it is network, shell, library trigonometry or rendering.
- Opening, reading, writing and closing netCDF/xarray files are not modelled, and neither is the text the `print` calls write. The `np.nanmax` they evaluate is modelled where it can raise. A file is a `TimeSeries.Store` value. `os.path.exists` is modelled as its outcome, `None` versus `Some(store)`.
- The netCDF `GridRad_Refl` fill value `9e9` and xarray's masking of it on read are not modelled. Cells are `Option<real>` throughout.
- The `np.float64` and `np.int` storage types are not modelled. Reflectivity is `real` and `zlev` an unbounded `int`.
- A dimension-size mismatch when appending a grid of another shape to an existing file is not modelled. netCDF would raise there, and the model appends.
- `str(refl_data.STARTDATE)` is taken to be the attribute text itself. The conversion of a numpy scalar to text is not modelled.
- `runinitdate` is modelled at hour resolution. Minutes, seconds, microseconds and time zones are not modelled.
- `timedelta(hours=i)` itself overflowing for astronomically large `rtime` is not modelled separately. Python raises `OverflowError` there too, which the model reports as `DateOverflow` from the range check of the sum.
- `Volume.DenseVolume`: repeated positions in `index` are excluded by a precondition, because numpy does not specify which value a repeated position ends up with.
- `Volume.DenseVolume`: `index` and `Reflectivity` must have the same length. numpy broadcasts a length-1 `Reflectivity` to every position and raises `ValueError` for every other mismatch at line 321; neither is modelled.
- `EventGrid.ReflectivityToEventGrid`: the model requires every file to hold a first time entry whose reflectivity has exactly the first file's `XLONG` shape. The source asks less. It reads `GridRad_Refl` only for files inside the window (lines 283-284), so an out-of-window file may have any grid or none; only file 0 must have an `XLONG`. numpy broadcasting at line 287 also accepts an in-window grid of one row, one column or one cell. Such lists are excluded from the model, and the shape error numpy raises for other mismatched in-window grids is not modelled. The writer leaves each file's first entry in place and, with a target-shaped interpolator, shaped like that file's `XLONG` (`TimeSeries.WriterKeepsFirstEntryShaped`); that different files share one target grid depends on the caller having written them all against the same `interpto_file`.
- `Decimal.PyInt`: its own contract only says a successful read had non-blank text. Its value on plain digit strings is stated by `Decimal.PyIntOfDigits`. The white space it skips is the ASCII set `int()` skips (space, tab, line feed, vertical tab, form feed, carriage return); the ASCII information separators make it fail, as they make `int()` raise. Non-ASCII digits and white space, which Python's `int()` also accepts, are not modelled.
- `Volume.Chunk`: its own contract states only the shape of the reshaped rows; the cell contents are the separate lemmas `Volume.ChunkCell` and `Volume.ChunkFlatten`, which keeps the recursive function cheap to check.
- `Volume.Reshape3`: its own contract states only the shape of the volume; the cell contents are the separate lemmas `Volume.Reshape3Cell` and `Volume.Reshape3Flatten`.
- `DateStrings.FromDatetimeRoundTrip` is stated for years 1000-9999 only. Years below 1000 do not round-trip, as `DateStrings.ShortYearBreaksRoundTrip` shows.

=== FILE: base.dfy ===
/**
 Shared vocabulary of the model: optional values, results carrying an error
 kind, and rectangular two-dimensional grids stored row-major as sequences of
 rows (the `(south_north, west_east)` arrays of the GridRad and WRF files).
 */
module Base {

  /** A value that may be absent. A reflectivity cell that holds NaN is `None`. */
  datatype Option<+T> = None | Some(value: T)

  /** The outcome of an operation that raises in the Python code on bad input. */
  datatype Result<+T, +E> = Success(value: T) | Failure(error: E)

  /** A grid cell of floating-point reflectivity: `None` stands for NaN. */
  type Cell = Option<real>

  /** A two-dimensional array, indexed `g[j][i]` with `j` the row (latitude)
      and `i` the column (longitude). */
  type Grid<T> = seq<seq<T>>

  /** `g` is a rectangular array of `rows` rows of `cols` cells each. */
  predicate IsGrid<T>(g: Grid<T>, rows: nat, cols: nat) {
    |g| == rows && forall j :: 0 <= j < |g| ==> |g[j]| == cols
  }

  /** The number of columns of a grid, taken from its first row (0 when empty). */
  function Cols<T>(g: Grid<T>): nat {
    if |g| == 0 then 0 else |g[0]|
  }

  /** `g` is rectangular. */
  predicate Rectangular<T>(g: Grid<T>) {
    IsGrid(g, |g|, Cols(g))
  }

  /** Two grids have the same shape. */
  predicate SameShape<T, U>(a: Grid<T>, b: Grid<U>) {
    Rectangular(a) && IsGrid(b, |a|, Cols(a))
  }

  /** The array holds no cell at all (numpy size 0): every row is empty,
      which includes having no rows. */
  predicate NoCells<T>(g: Grid<T>) {
    forall j :: 0 <= j < |g| ==> |g[j]| == 0
  }

  /** A `rows` by `cols` array has no cells exactly when one of the two
      dimensions is zero. */
  lemma NoCellsOfShape<T>(g: Grid<T>, rows: nat, cols: nat)
    requires IsGrid(g, rows, cols)
    ensures NoCells(g) <==> rows == 0 || cols == 0
  {
    if rows > 0 && NoCells(g) {
      assert |g[0]| == 0;
    }
  }

  /** The Python comparison `x > t` on a float that may be NaN: a NaN cell
      never exceeds the threshold. */
  predicate Exceeds(x: Cell, threshold: real) {
    x.Some? && x.value > threshold
  }
}

=== FILE: calendar.dfy ===
/**
 The part of Python's `datetime` the window test relies on: which
 (year, month, day, hour) combinations `datetime(...)` accepts, and the
 proleptic-Gregorian day ordinal (`toordinal()`, day 1 is 0001-01-01) that
 `datetime + timedelta` works with. Instants are counted in whole hours since
 the start of ordinal day 0; two valid instants are equal exactly when their
 hour counts are (`HourOrdinalInjective`), which is what lets the event-grid
 builder compare datetimes as integers.
 */
module Calendar {

  const MinYear: int := 1
  const MaxYear: int := 9999
  /** `date(9999, 12, 31).toordinal()`: the last day a `datetime` can hold. */
  const MaxOrdinal: int := 3652059

  /** A `datetime` at hour resolution; minutes, seconds and microseconds are
      zero wherever this model creates or compares one. */
  datatype DateHour = DateHour(year: int, month: int, day: int, hour: int) {
    /** The values `datetime(year, month, day, hour)` accepts without raising. */
    predicate Valid() {
      && MinYear <= year <= MaxYear
      && 1 <= month <= 12
      && 1 <= day <= DaysInMonth(year, month)
      && 0 <= hour <= 23
    }
  }

  predicate IsLeap(y: int) {
    y % 4 == 0 && (y % 100 != 0 || y % 400 == 0)
  }

  function DaysInYear(y: int): int {
    if IsLeap(y) then 366 else 365
  }

  function DaysInMonth(y: int, m: int): int
    requires 1 <= m <= 12
  {
    if m == 2 then (if IsLeap(y) then 29 else 28)
    else if m == 4 || m == 6 || m == 9 || m == 11 then 30
    else 31
  }

  /** Days in year `y` before the first of month `m`. */
  function DaysBeforeMonth(y: int, m: int): (r: int)
    requires 1 <= m <= 12
    ensures 0 <= r <= 31 * (m - 1)
  {
    if m == 1 then 0 else DaysBeforeMonth(y, m - 1) + DaysInMonth(y, m - 1)
  }

  /** Days before 1 January of year `y`, counted from 0001-01-01. */
  function DaysBeforeYear(y: int): int
    requires y >= 1
  {
    var p := y - 1;
    p * 365 + p / 4 - p / 100 + p / 400
  }

  /** `date(year, month, day).toordinal()`. */
  function Ordinal(d: DateHour): int
    requires d.Valid()
  {
    DaysBeforeYear(d.year) + DaysBeforeMonth(d.year, d.month) + d.day
  }

  /** The instant as whole hours: `toordinal() * 24 + hour`. */
  function HourOrdinal(d: DateHour): int
    requires d.Valid()
  {
    Ordinal(d) * 24 + d.hour
  }

  /** Whether the instant `h` (an hour count) lies on a day a `datetime` can
      represent; `datetime + timedelta` raises `OverflowError` otherwise. */
  predicate HourInRange(h: int) {
    1 <= h / 24 <= MaxOrdinal
  }

  /** Strict chronological order of two instants. */
  predicate Before(a: DateHour, b: DateHour) {
    || a.year < b.year
    || (a.year == b.year && a.month < b.month)
    || (a.year == b.year && a.month == b.month && a.day < b.day)
    || (a.year == b.year && a.month == b.month && a.day == b.day && a.hour < b.hour)
  }

  lemma DivStep4(p: int)
    requires p >= 0
    ensures (p + 1) / 4 == p / 4 + (if (p + 1) % 4 == 0 then 1 else 0)
  {
  }

  lemma DivStep100(p: int)
    requires p >= 0
    ensures (p + 1) / 100 == p / 100 + (if (p + 1) % 100 == 0 then 1 else 0)
  {
  }

  lemma DivStep400(p: int)
    requires p >= 0
    ensures (p + 1) / 400 == p / 400 + (if (p + 1) % 400 == 0 then 1 else 0)
  {
  }

  lemma Div400Divides(y: int)
    requires y % 400 == 0
    ensures y % 100 == 0 && y % 4 == 0
  {
    var q := y / 400;
    assert y == 400 * q;
    Mod100OfMultiple(4 * q);
    Mod4OfMultiple(100 * q);
  }

  lemma Div100Divides(y: int)
    requires y % 100 == 0
    ensures y % 4 == 0
  {
    var q := y / 100;
    assert y == 100 * q;
    Mod4OfMultiple(25 * q);
  }

  lemma Mod100OfMultiple(m: int)
    ensures (100 * m) % 100 == 0
  {
  }

  lemma Mod4OfMultiple(m: int)
    ensures (4 * m) % 4 == 0
  {
  }


  /** Consecutive years are `DaysInYear` apart in the ordinal. */
  lemma DaysBeforeYearStep(y: int)
    requires y >= 1
    ensures DaysBeforeYear(y + 1) == DaysBeforeYear(y) + DaysInYear(y)
  {
    var p := y - 1;
    DivStep4(p);
    DivStep100(p);
    DivStep400(p);
    var leaps := (if y % 4 == 0 then 1 else 0) - (if y % 100 == 0 then 1 else 0) + (if y % 400 == 0 then 1 else 0);
    assert DaysBeforeYear(y + 1) == DaysBeforeYear(y) + 365 + leaps;
    if y % 400 == 0 {
      Div400Divides(y);
    } else if y % 100 == 0 {
      Div100Divides(y);
    }
  }

  lemma {:induction false} DaysBeforeYearMonotone(y1: int, y2: int)
    requires 1 <= y1 < y2
    ensures DaysBeforeYear(y1) + DaysInYear(y1) <= DaysBeforeYear(y2)
    decreases y2 - y1
  {
    DaysBeforeYearStep(y1);
    if y1 + 1 < y2 {
      DaysBeforeYearMonotone(y1 + 1, y2);
    }
  }

  lemma {:induction false} DaysBeforeMonthMonotone(y: int, m1: int, m2: int)
    requires 1 <= m1 < m2 <= 12
    ensures DaysBeforeMonth(y, m1) + DaysInMonth(y, m1) <= DaysBeforeMonth(y, m2)
  {
    if m1 + 1 < m2 {
      DaysBeforeMonthMonotone(y, m1, m2 - 1);
    }
  }

  /** The months of a year add up to the year's length. */
  lemma MonthsFillYear(y: int)
    ensures DaysBeforeMonth(y, 12) + DaysInMonth(y, 12) == DaysInYear(y)
  {
    var leap := if IsLeap(y) then 1 else 0;
    assert DaysBeforeMonth(y, 2) == 31;
    assert DaysBeforeMonth(y, 3) == 59 + leap;
    assert DaysBeforeMonth(y, 4) == 90 + leap;
    assert DaysBeforeMonth(y, 5) == 120 + leap;
    assert DaysBeforeMonth(y, 6) == 151 + leap;
    assert DaysBeforeMonth(y, 7) == 181 + leap;
    assert DaysBeforeMonth(y, 8) == 212 + leap;
    assert DaysBeforeMonth(y, 9) == 243 + leap;
    assert DaysBeforeMonth(y, 10) == 273 + leap;
    assert DaysBeforeMonth(y, 11) == 304 + leap;
    assert DaysBeforeMonth(y, 12) == 334 + leap;
  }

  /** A valid date's ordinal stays within its own year's span. */
  lemma OrdinalWithinYear(d: DateHour)
    requires d.Valid()
    ensures DaysBeforeYear(d.year) < Ordinal(d) <= DaysBeforeYear(d.year) + DaysInYear(d.year)
  {
    MonthsFillYear(d.year);
    if d.month < 12 {
      DaysBeforeMonthMonotone(d.year, d.month, 12);
    }
  }

  /** The ordinal is strictly increasing in chronological order. */
  lemma OrdinalMonotone(a: DateHour, b: DateHour)
    requires a.Valid() && b.Valid() && Before(a, b)
    ensures Ordinal(a) < Ordinal(b) || (Ordinal(a) == Ordinal(b) && a.hour < b.hour)
  {
    if a.year < b.year {
      OrdinalWithinYear(a);
      OrdinalWithinYear(b);
      DaysBeforeYearMonotone(a.year, b.year);
    } else if a.month < b.month {
      DaysBeforeMonthMonotone(a.year, a.month, b.month);
    }
  }

  /** Every valid `datetime` falls on an ordinal day `1 .. MaxOrdinal`. */
  lemma OrdinalRange(d: DateHour)
    requires d.Valid()
    ensures 1 <= Ordinal(d) <= MaxOrdinal
    ensures HourInRange(HourOrdinal(d))
  {
    OrdinalWithinYear(d);
    if d.year < MaxYear {
      DaysBeforeYearMonotone(d.year, MaxYear);
    }
    DaysBeforeYearStep(MaxYear);
  }

  /** Later instants have larger hour counts. */
  lemma HourOrdinalMonotone(a: DateHour, b: DateHour)
    requires a.Valid() && b.Valid() && Before(a, b)
    ensures HourOrdinal(a) < HourOrdinal(b)
  {
    OrdinalMonotone(a, b);
  }

  /** Two valid instants with the same hour count are the same `datetime`:
      comparing hour counts decides `datetime` equality. */
  lemma HourOrdinalInjective(a: DateHour, b: DateHour)
    requires a.Valid() && b.Valid()
    ensures HourOrdinal(a) == HourOrdinal(b) <==> a == b
  {
    if a != b {
      if Before(a, b) {
        HourOrdinalMonotone(a, b);
      } else {
        assert Before(b, a);
        HourOrdinalMonotone(b, a);
      }
    }
  }
}

=== FILE: date_strings.dfy ===
/**
 The two textual forms of a date in the analysis module: `fromDatetime`
 splits a `datetime` into zero-padded year, month, day and hour strings (the
 pieces the RAP URL and output file names are assembled from), and the
 event-grid builder reads a file's `STARTDATE` attribute back as
 `YYYYMMDDHH` by slicing it at fixed offsets.
 */
module DateStrings {
  import opened Base
  import opened Decimal
  import opened Calendar

  /** The tuple `(year, month, day, hour)` of strings `fromDatetime` returns. */
  datatype DateParts = DateParts(year: string, month: string, day: string, hour: string)

  /** Raised by `int()` or `datetime()` on a malformed `STARTDATE`. */
  datatype DateError = BadStartDate

  /** `str(n)` with a `"0"` in front when it is a single character. */
  function ZeroPad(n: nat): (s: string)
    ensures AllDigits(s)
    ensures n < 100 ==> |s| == 2 && DigitsValue(s) == n
    ensures n >= 10 ==> s == NatToString(n)
  {
    var t := NatToString(n);
    NatToStringLength(n);
    NatToStringRoundTrip(n);
    if |t| == 1 then
      assert ("0" + t)[..1] == "0";
      "0" + t
    else t
  }

  /** `fromDatetime(date, interp)`: month, day and hour as two digits each,
      the year as plain `str(year)`, and with `interp` two more zeros so the
      hour reads as `HH00`. */
  function FromDatetime(d: DateHour, interp: bool): (r: DateParts)
    requires d.Valid()
    ensures AllDigits(r.year) && DigitsValue(r.year) == d.year && r.year[0] != '0'
    ensures |r.month| == 2 && AllDigits(r.month) && DigitsValue(r.month) == d.month
    ensures |r.day| == 2 && AllDigits(r.day) && DigitsValue(r.day) == d.day
    ensures |r.hour| == (if interp then 4 else 2) && AllDigits(r.hour)
    ensures DigitsValue(r.hour[..2]) == d.hour
    ensures interp ==> r.hour[2..] == "00"
  {
    NatToStringRoundTrip(d.year);
    var hour := ZeroPad(d.hour);
    var hour' := if interp then hour + "00" else hour;
    assert hour'[..2] == hour;
    DateParts(NatToString(d.year), ZeroPad(d.month), ZeroPad(d.day), hour')
  }

  /** The four parts written one after another, as in `"{}{}{}{}".format(yr, mo, day, hr)`. */
  function Joined(p: DateParts): string {
    p.year + p.month + p.day + p.hour
  }

  /** Python's `s[i:j]` for `0 <= i <= j`: bounds past the end are clipped. */
  function PySlice(s: string, i: nat, j: nat): (r: string)
    requires i <= j
    ensures |r| <= j - i
    ensures j <= |s| ==> r == s[i..j]
  {
    var lo := if i <= |s| then i else |s|;
    var hi := if j <= |s| then j else |s|;
    s[lo..hi]
  }

  /** The four fixed slices of `start` read, with `int()`, as the
      components of `d`. */
  predicate SlicesRead(start: string, d: DateHour) {
    && PyInt(PySlice(start, 0, 4)) == Some(d.year)
    && PyInt(PySlice(start, 4, 6)) == Some(d.month)
    && PyInt(PySlice(start, 6, 8)) == Some(d.day)
    && PyInt(PySlice(start, 8, 10)) == Some(d.hour)
  }

  /** The `STARTDATE` reader: the four fixed slices (characters 0-3, 4-5,
      6-7 and 8-9) go through `int()` and the results build a `datetime`.
      It succeeds exactly when the slices read as a valid instant, and then
      yields that instant; otherwise `int()` or `datetime()` raises
      `ValueError`. */
  function ParseStartDate(start: string): (r: Result<DateHour, DateError>)
    ensures r.Success? ==> r.value.Valid() && SlicesRead(start, r.value)
    ensures forall d :: SlicesRead(start, d) && d.Valid() ==> r == Success(d)
  {
    var y := PyInt(PySlice(start, 0, 4));
    var m := PyInt(PySlice(start, 4, 6));
    var d := PyInt(PySlice(start, 6, 8));
    var h := PyInt(PySlice(start, 8, 10));
    if y.None? || m.None? || d.None? || h.None? then Failure(BadStartDate)
    else
      var dh := DateHour(y.value, m.value, d.value, h.value);
      if dh.Valid() then Success(dh) else Failure(BadStartDate)
  }

  /** For a four-digit year, slicing the joined `fromDatetime` strings at
      4, 6, 8 and 10 recovers the instant, whether or not the hour was
      written with the trailing `"00"`. */
  lemma FromDatetimeRoundTrip(d: DateHour, interp: bool)
    requires d.Valid() && d.year >= 1000
    ensures ParseStartDate(Joined(FromDatetime(d, interp))) == Success(d)
  {
    FromDatetimeSlicesRead(d, interp);
  }

  lemma FromDatetimeSlicesRead(d: DateHour, interp: bool)
    requires d.Valid() && d.year >= 1000
    ensures SlicesRead(Joined(FromDatetime(d, interp)), d)
  {
    YearReadsBack(d, interp);
    MonthReadsBack(d, interp);
    DayReadsBack(d, interp);
    HourReadsBack(d, interp);
  }

  lemma YearReadsBack(d: DateHour, interp: bool)
    requires d.Valid() && d.year >= 1000
    ensures PyInt(PySlice(Joined(FromDatetime(d, interp)), 0, 4)) == Some(d.year)
  {
    var p := FromDatetime(d, interp);
    NatToStringLength(d.year);
    JoinedSlices(p);
    ReadsBack(Joined(p), 0, 4, p.year);
  }

  lemma MonthReadsBack(d: DateHour, interp: bool)
    requires d.Valid() && d.year >= 1000
    ensures PyInt(PySlice(Joined(FromDatetime(d, interp)), 4, 6)) == Some(d.month)
  {
    var p := FromDatetime(d, interp);
    NatToStringLength(d.year);
    JoinedSlices(p);
    ReadsBack(Joined(p), 4, 6, p.month);
  }

  lemma DayReadsBack(d: DateHour, interp: bool)
    requires d.Valid() && d.year >= 1000
    ensures PyInt(PySlice(Joined(FromDatetime(d, interp)), 6, 8)) == Some(d.day)
  {
    var p := FromDatetime(d, interp);
    NatToStringLength(d.year);
    JoinedSlices(p);
    ReadsBack(Joined(p), 6, 8, p.day);
  }

  lemma HourReadsBack(d: DateHour, interp: bool)
    requires d.Valid() && d.year >= 1000
    ensures PyInt(PySlice(Joined(FromDatetime(d, interp)), 8, 10)) == Some(d.hour)
  {
    var p := FromDatetime(d, interp);
    NatToStringLength(d.year);
    JoinedSlices(p);
    ReadsBack(Joined(p), 8, 10, p.hour[..2]);
  }

  /** A slice that holds a non-empty digit string parses to its value. */
  lemma ReadsBack(s: string, i: nat, j: nat, part: string)
    requires i <= j && PySlice(s, i, j) == part
    requires |part| > 0 && AllDigits(part)
    ensures PyInt(PySlice(s, i, j)) == Some(DigitsValue(part) as int)
  {
    PyIntOfDigits(part);
  }

  /** The fixed slice positions of the parser fall on the part boundaries
      when the year has four characters and the others at least two. */
  lemma JoinedSlices(p: DateParts)
    requires |p.year| == 4 && |p.month| == 2 && |p.day| == 2 && |p.hour| >= 2
    ensures PySlice(Joined(p), 0, 4) == p.year
    ensures PySlice(Joined(p), 4, 6) == p.month
    ensures PySlice(Joined(p), 6, 8) == p.day
    ensures PySlice(Joined(p), 8, 10) == p.hour[..2]
  {
    var s := Joined(p);
    assert s[0..4] == p.year;
    assert s[4..6] == p.month;
    assert s[6..8] == p.day;
    assert s[8..10] == p.hour[..2];
  }

  /** The four-digit bound is needed: with a shorter year the first slice
      also takes leading digits of the month (and of the day or hour for
      one- and two-digit years), so the year read back is at least 1000 and
      the instant never comes back. */
  lemma ShortYearBreaksRoundTrip(d: DateHour, interp: bool)
    requires d.Valid() && d.year < 1000
    ensures ParseStartDate(Joined(FromDatetime(d, interp))) != Success(d)
  {
    ShortYearFirstSlice(d, interp);
  }

  lemma ShortYearFirstSlice(d: DateHour, interp: bool)
    requires d.Valid() && d.year < 1000
    ensures PyInt(PySlice(Joined(FromDatetime(d, interp)), 0, 4)).Some?
    ensures PyInt(PySlice(Joined(FromDatetime(d, interp)), 0, 4)).value >= 1000
  {
    var p := FromDatetime(d, interp);
    var s := Joined(p);
    JoinedDigits(p);
    var part := s[..4];
    assert PySlice(s, 0, 4) == part;
    assert part[0] == p.year[0];
    ReadsBack(s, 0, 4, part);
    LeadingDigitBound(part);
  }

  /** Formatting and reading back agree exactly for the years with four
      digits. */
  lemma RoundTripIffFourDigitYear(d: DateHour, interp: bool)
    requires d.Valid()
    ensures ParseStartDate(Joined(FromDatetime(d, interp))) == Success(d) <==> d.year >= 1000
  {
    if d.year >= 1000 {
      FromDatetimeRoundTrip(d, interp);
    } else {
      ShortYearBreaksRoundTrip(d, interp);
    }
  }

  /** The joined parts are all digits when every part is. */
  lemma JoinedDigits(p: DateParts)
    requires AllDigits(p.year) && AllDigits(p.month) && AllDigits(p.day) && AllDigits(p.hour)
    ensures AllDigits(Joined(p))
  {
    var s := Joined(p);
    forall k | 0 <= k < |s|
      ensures IsDigit(s[k])
    {
      if k < |p.year| {
        assert s[k] == p.year[k];
      } else if k < |p.year| + |p.month| {
        assert s[k] == p.month[k - |p.year|];
      } else if k < |p.year| + |p.month| + |p.day| {
        assert s[k] == p.day[k - |p.year| - |p.month|];
      } else {
        assert s[k] == p.hour[k - |p.year| - |p.month| - |p.day|];
      }
    }
  }

  /** Four digits without a leading zero are worth at least 1000. */
  lemma LeadingDigitBound(s: string)
    requires |s| == 4 && AllDigits(s) && s[0] != '0'
    ensures DigitsValue(s) >= 1000
  {
    assert s[..3][..2] == s[..2];
    assert s[..2][..1] == s[..1];
    assert s[..1][..0] == [];
    assert DigitsValue(s[..1]) >= 1;
  }
}

=== FILE: decimal.dfy ===
/**
 Decimal text for integers, as Python writes it with `str(n)` and reads it
 back with `int(s)`. The date formatter builds its strings with the first and
 the `STARTDATE` parser decodes its slices with the second.
 */
module Decimal {
  import opened Base

  predicate IsDigit(c: char) {
    '0' <= c <= '9'
  }

  predicate AllDigits(s: string) {
    forall k :: 0 <= k < |s| ==> IsDigit(s[k])
  }

  function DigitChar(d: nat): (c: char)
    requires d < 10
    ensures IsDigit(c)
  {
    "0123456789"[d]
  }

  function DigitValue(c: char): (d: nat)
    requires IsDigit(c)
    ensures d < 10
  {
    (c as int) - ('0' as int)
  }

  lemma DigitRoundTrip(d: nat)
    requires d < 10
    ensures DigitValue(DigitChar(d)) == d
  {
  }

  /** The value of a string of decimal digits, most significant first. */
  function DigitsValue(s: string): nat
    requires AllDigits(s)
  {
    if |s| == 0 then 0 else DigitsValue(s[..|s| - 1]) * 10 + DigitValue(s[|s| - 1])
  }

  /** `str(n)` for a non-negative Python int: shortest decimal text, no sign. */
  function NatToString(n: nat): (s: string)
    ensures |s| >= 1 && AllDigits(s)
  {
    if n < 10 then [DigitChar(n)] else NatToString(n / 10) + [DigitChar(n % 10)]
  }

  /** `str(n)` has no leading zero (except for `n == 0`) and reads back as `n`. */
  lemma {:induction false} NatToStringRoundTrip(n: nat)
    ensures DigitsValue(NatToString(n)) == n
    ensures n > 0 ==> NatToString(n)[0] != '0'
  {
    var s := NatToString(n);
    if n < 10 {
      DigitRoundTrip(n);
    } else {
      NatToStringRoundTrip(n / 10);
      assert s[..|s| - 1] == NatToString(n / 10);
      DigitRoundTrip(n % 10);
    }
  }

  /** How many characters `str(n)` has for the magnitudes a date uses. */
  lemma {:induction false} NatToStringLength(n: nat)
    ensures n < 10 ==> |NatToString(n)| == 1
    ensures 10 <= n < 100 ==> |NatToString(n)| == 2
    ensures 100 <= n < 1000 ==> |NatToString(n)| == 3
    ensures 1000 <= n < 10000 ==> |NatToString(n)| == 4
  {
    if n >= 10 {
      NatToStringLength(n / 10);
    }
  }

  /** The ASCII characters `int()` skips around its numeral: tab, line
      feed, vertical tab, form feed, carriage return and space. The
      information separators U+001C..U+001F, which `str.strip()` would
      remove, make `int()` raise instead. */
  predicate IsSpace(c: char) {
    c == ' ' || ('\t' <= c <= '\r')
  }

  function StripLeft(s: string): string {
    if |s| > 0 && IsSpace(s[0]) then StripLeft(s[1..]) else s
  }

  function StripRight(s: string): string {
    if |s| > 0 && IsSpace(s[|s| - 1]) then StripRight(s[..|s| - 1]) else s
  }

  /** Leading and trailing white space removed, as `int()` skips it before parsing. */
  function Strip(s: string): string {
    StripRight(StripLeft(s))
  }

  /** The digits of a numeral with the `_` separators Python allows: it starts
      and ends with a digit, and every `_` stands between two digits. */
  predicate IsNumeral(b: string) {
    && |b| > 0
    && IsDigit(b[0])
    && IsDigit(b[|b| - 1])
    && (forall k :: 0 <= k < |b| ==> IsDigit(b[k]) || b[k] == '_')
    && (forall k :: 0 <= k < |b| - 1 && b[k] == '_' ==> b[k + 1] != '_')
  }

  function RemoveUnderscores(b: string): (r: string)
    requires forall k :: 0 <= k < |b| ==> IsDigit(b[k]) || b[k] == '_'
    ensures AllDigits(r) && |r| <= |b|
  {
    if |b| == 0 then ""
    else if b[0] == '_' then RemoveUnderscores(b[1..])
    else [b[0]] + RemoveUnderscores(b[1..])
  }

  /** Python's `int(s)` in base 10 on ASCII text: surrounding white space is
      ignored, an optional sign precedes the numeral, and anything else
      (the empty string included) raises `ValueError`, modelled as `None`. */
  function PyInt(s: string): (r: Option<int>)
    ensures r.Some? ==> |Strip(s)| > 0
  {
    var t := Strip(s);
    if |t| == 0 then None
    else
      var body := if t[0] == '+' || t[0] == '-' then t[1..] else t;
      if !IsNumeral(body) then None
      else
        var v := DigitsValue(RemoveUnderscores(body));
        Some(if t[0] == '-' then -(v as int) else v as int)
  }

  lemma {:induction false} RemoveUnderscoresOfDigits(b: string)
    requires AllDigits(b)
    ensures RemoveUnderscores(b) == b
  {
    if |b| > 0 {
      RemoveUnderscoresOfDigits(b[1..]);
    }
  }

  /** `int()` reads a non-empty string of plain digits as its decimal value. */
  lemma PyIntOfDigits(s: string)
    requires |s| > 0 && AllDigits(s)
    ensures PyInt(s) == Some(DigitsValue(s) as int)
  {
    assert StripLeft(s) == s;
    assert StripRight(s) == s;
    RemoveUnderscoresOfDigits(s);
  }

  /** `int(str(n)) == n`. */
  lemma PyIntOfNatToString(n: nat)
    ensures PyInt(NatToString(n)) == Some(n as int)
  {
    PyIntOfDigits(NatToString(n));
    NatToStringRoundTrip(n);
  }
}

=== FILE: event_grid.dfy ===
/**
 The reflectivity event grid: for a response window of hours after model
 initialisation, a cell is a hit when any interpolated GridRad file whose
 start time falls in the window has reflectivity strictly above the
 threshold there. Files are visited in list order and their threshold masks
 are OR-ed into an accumulator that starts all false.
 */
module EventGrid {
  import opened Base
  import opened Calendar
  import opened DateStrings
  import opened TimeSeries

  /** `IndexError` for an empty file list, `OverflowError` when a window
      instant is not a representable `datetime`, `ValueError` for a
      `STARTDATE` that does not read as `YYYYMMDDHH`, and `ValueError` from
      `np.nanmax` on the reflectivity of an in-window file that has no
      cells. */
  datatype EventGridError = NoFiles | DateOverflow | UnreadableStartDate | EmptyReflectivity

  /** The window as hour offsets from initialisation: `range(rtime - 5, rtime)`
      in six-hour mode, `[rtime]` otherwise. */
  function ResponseWindow(sixhr: bool, rtime: int): (w: seq<int>)
    ensures sixhr ==> |w| == 5 && (forall h :: h in w <==> rtime - 5 <= h < rtime)
    ensures !sixhr ==> |w| == 1 && (forall h :: h in w <==> h == rtime)
  {
    if sixhr then
      var w := seq(5, k => rtime - 5 + k);
      assert forall h :: rtime - 5 <= h < rtime ==> h in w by {
        forall h | rtime - 5 <= h < rtime
          ensures h in w
        {
          assert w[h - (rtime - 5)] == h;
        }
      }
      w
    else [rtime]
  }

  /** In six-hour mode the response hour itself is not part of the window. */
  lemma SixHourWindowExcludesResponseHour(rtime: int)
    ensures rtime !in ResponseWindow(true, rtime)
    ensures rtime - 5 in ResponseWindow(true, rtime)
  {
  }

  /** The all-false accumulator shaped like the first file's grid. */
  function AllFalse(rows: nat, cols: nat): (g: Grid<bool>)
    ensures IsGrid(g, rows, cols)
    ensures forall j, i :: 0 <= j < rows && 0 <= i < cols ==> !g[j][i]
  {
    seq(rows, j => seq(cols, i => false))
  }

  /** `refl > threshold` cell by cell, where NaN compares false. */
  function ExceedMask(refl: Grid<Cell>, rows: nat, cols: nat, threshold: real): (m: Grid<bool>)
    requires IsGrid(refl, rows, cols)
    ensures IsGrid(m, rows, cols)
    ensures forall j, i :: 0 <= j < rows && 0 <= i < cols ==> (m[j][i] <==> Exceeds(refl[j][i], threshold))
  {
    seq(rows, j requires 0 <= j < rows => seq(cols, i requires 0 <= i < cols => Exceeds(refl[j][i], threshold)))
  }

  /** `agg[mask | agg] = True`: every cell true in either grid is set, the
      others keep their value. No cell that was true becomes false. */
  function SetWhere(agg: Grid<bool>, mask: Grid<bool>, rows: nat, cols: nat): (r: Grid<bool>)
    requires IsGrid(agg, rows, cols) && IsGrid(mask, rows, cols)
    ensures IsGrid(r, rows, cols)
    ensures forall j, i :: 0 <= j < rows && 0 <= i < cols ==> agg[j][i] ==> r[j][i]
    ensures forall j, i :: 0 <= j < rows && 0 <= i < cols ==> (r[j][i] <==> agg[j][i] || mask[j][i])
  {
    seq(rows, j requires 0 <= j < rows =>
      seq(cols, i requires 0 <= i < cols => if mask[j][i] || agg[j][i] then true else agg[j][i]))
  }

  /** A file reduced to what the aggregation looks at: its start time as an
      hour offset from initialisation, and its first reflectivity grid. */
  datatype TimedGrid = TimedGrid(offset: int, refl: Grid<Cell>)

  predicate AllShaped(recs: seq<TimedGrid>, rows: nat, cols: nat) {
    forall k :: 0 <= k < |recs| ==> IsGrid(recs[k].refl, rows, cols)
  }

  /** The loop over the files: in-window files OR their masks into the
      accumulator, the others are skipped. Afterwards a cell is set exactly
      when some in-window file exceeds the threshold there. */
  function Aggregate(recs: seq<TimedGrid>, window: seq<int>, threshold: real, rows: nat, cols: nat): (g: Grid<bool>)
    requires AllShaped(recs, rows, cols)
    ensures IsGrid(g, rows, cols)
    ensures forall j, i :: 0 <= j < rows && 0 <= i < cols ==>
      (g[j][i] <==> Hit(recs, window, threshold, rows, cols, j, i))
    decreases |recs|
  {
    if |recs| == 0 then AllFalse(rows, cols)
    else
      var acc := Aggregate(recs[..|recs| - 1], window, threshold, rows, cols);
      var last := recs[|recs| - 1];
      FoldStep(recs, acc, window, threshold, rows, cols);
      if last.offset in window then SetWhere(acc, ExceedMask(last.refl, rows, cols, threshold), rows, cols)
      else acc
  }

  /** Some in-window record exceeds the threshold at `(j, i)`. */
  ghost predicate Hit(recs: seq<TimedGrid>, window: seq<int>, threshold: real, rows: nat, cols: nat, j: nat, i: nat)
    requires AllShaped(recs, rows, cols) && j < rows && i < cols
  {
    exists k :: 0 <= k < |recs| && recs[k].offset in window && Exceeds(recs[k].refl[j][i], threshold)
  }

  /** One iteration of the loop keeps the accumulator equal to the hits of
      the files seen so far. */
  lemma FoldStep(recs: seq<TimedGrid>, acc: Grid<bool>, window: seq<int>, threshold: real, rows: nat, cols: nat)
    requires |recs| > 0 && AllShaped(recs, rows, cols) && IsGrid(acc, rows, cols)
    requires forall j, i :: 0 <= j < rows && 0 <= i < cols ==>
      (acc[j][i] <==> Hit(recs[..|recs| - 1], window, threshold, rows, cols, j, i))
    ensures
      var last := recs[|recs| - 1];
      var g := if last.offset in window then SetWhere(acc, ExceedMask(last.refl, rows, cols, threshold), rows, cols)
               else acc;
      forall j, i :: 0 <= j < rows && 0 <= i < cols ==> (g[j][i] <==> Hit(recs, window, threshold, rows, cols, j, i))
  {
    var n := |recs| - 1;
    var front := recs[..n];
    var last := recs[n];
    var g := if last.offset in window then SetWhere(acc, ExceedMask(last.refl, rows, cols, threshold), rows, cols)
             else acc;
    forall j, i | 0 <= j < rows && 0 <= i < cols
      ensures g[j][i] <==> Hit(recs, window, threshold, rows, cols, j, i)
    {
      if Hit(recs, window, threshold, rows, cols, j, i) {
        var k :| 0 <= k < |recs| && recs[k].offset in window && Exceeds(recs[k].refl[j][i], threshold);
        if k < n {
          assert front[k] == recs[k];
        }
      }
      if Hit(front, window, threshold, rows, cols, j, i) {
        var k :| 0 <= k < n && front[k].offset in window && Exceeds(front[k].refl[j][i], threshold);
        assert recs[k] == front[k];
      }
    }
  }

  /** A cell of the event grid is true exactly when some file in the window
      has reflectivity above the threshold there. */
  lemma AggregateCell(recs: seq<TimedGrid>, window: seq<int>, threshold: real,
                      rows: nat, cols: nat, j: nat, i: nat)
    requires AllShaped(recs, rows, cols) && j < rows && i < cols
    ensures Aggregate(recs, window, threshold, rows, cols)[j][i] <==> Hit(recs, window, threshold, rows, cols, j, i)
  {
  }

  lemma GridExtensionality(a: Grid<bool>, b: Grid<bool>, rows: nat, cols: nat)
    requires IsGrid(a, rows, cols) && IsGrid(b, rows, cols)
    requires forall j, i :: 0 <= j < rows && 0 <= i < cols ==> a[j][i] == b[j][i]
    ensures a == b
  {
    forall j | 0 <= j < rows
      ensures a[j] == b[j]
    {
    }
  }

  /** Two file lists holding the same files produce the same event grid,
      whatever their order or repetitions. */
  lemma AggregateOrderIndependent(recs1: seq<TimedGrid>, recs2: seq<TimedGrid>, window: seq<int>,
                                  threshold: real, rows: nat, cols: nat)
    requires AllShaped(recs1, rows, cols) && AllShaped(recs2, rows, cols)
    requires forall x :: x in recs1 <==> x in recs2
    ensures Aggregate(recs1, window, threshold, rows, cols) == Aggregate(recs2, window, threshold, rows, cols)
  {
    var g1 := Aggregate(recs1, window, threshold, rows, cols);
    var g2 := Aggregate(recs2, window, threshold, rows, cols);
    forall j, i | 0 <= j < rows && 0 <= i < cols
      ensures g1[j][i] == g2[j][i]
    {
      AggregateCell(recs1, window, threshold, rows, cols, j, i);
      AggregateCell(recs2, window, threshold, rows, cols, j, i);
      if Hit(recs1, window, threshold, rows, cols, j, i) {
        var k :| 0 <= k < |recs1| && recs1[k].offset in window && Exceeds(recs1[k].refl[j][i], threshold);
        assert recs1[k] in recs2;
      }
      if Hit(recs2, window, threshold, rows, cols, j, i) {
        var k :| 0 <= k < |recs2| && recs2[k].offset in window && Exceeds(recs2[k].refl[j][i], threshold);
        assert recs2[k] in recs1;
      }
    }
    GridExtensionality(g1, g2, rows, cols);
  }

  /** Adding files never clears a hit. */
  lemma AggregateMonotone(recs: seq<TimedGrid>, more: seq<TimedGrid>, window: seq<int>,
                          threshold: real, rows: nat, cols: nat, j: nat, i: nat)
    requires AllShaped(recs, rows, cols) && AllShaped(more, rows, cols) && j < rows && i < cols
    ensures Aggregate(recs, window, threshold, rows, cols)[j][i] ==>
            Aggregate(recs + more, window, threshold, rows, cols)[j][i]
  {
    AggregateCell(recs, window, threshold, rows, cols, j, i);
    AggregateCell(recs + more, window, threshold, rows, cols, j, i);
    if Hit(recs, window, threshold, rows, cols, j, i) {
      var k :| 0 <= k < |recs| && recs[k].offset in window && Exceeds(recs[k].refl[j][i], threshold);
      assert (recs + more)[k] == recs[k];
    }
  }

  /** A file outside the window changes nothing, wherever it stands in the list. */
  lemma OutOfWindowIgnored(front: seq<TimedGrid>, skipped: TimedGrid, back: seq<TimedGrid>, window: seq<int>,
                           threshold: real, rows: nat, cols: nat)
    requires AllShaped(front + back, rows, cols) && IsGrid(skipped.refl, rows, cols)
    requires skipped.offset !in window
    ensures AllShaped(front + [skipped] + back, rows, cols)
    ensures Aggregate(front + [skipped] + back, window, threshold, rows, cols)
         == Aggregate(front + back, window, threshold, rows, cols)
  {
    var with := front + [skipped] + back;
    var without := front + back;
    assert AllShaped(with, rows, cols) by {
      forall k | 0 <= k < |with|
        ensures IsGrid(with[k].refl, rows, cols)
      {
        if k < |front| {
          assert with[k] == without[k];
        } else if k > |front| {
          assert with[k] == without[k - 1];
        }
      }
    }
    var g1 := Aggregate(with, window, threshold, rows, cols);
    var g2 := Aggregate(without, window, threshold, rows, cols);
    forall j, i | 0 <= j < rows && 0 <= i < cols
      ensures g1[j][i] == g2[j][i]
    {
      HitIgnoresSkipped(front, skipped, back, window, threshold, rows, cols, j, i);
    }
    GridExtensionality(g1, g2, rows, cols);
  }

  /** An out-of-window record adds no hit. */
  lemma HitIgnoresSkipped(front: seq<TimedGrid>, skipped: TimedGrid, back: seq<TimedGrid>, window: seq<int>,
                          threshold: real, rows: nat, cols: nat, j: nat, i: nat)
    requires AllShaped(front + [skipped] + back, rows, cols) && AllShaped(front + back, rows, cols)
    requires skipped.offset !in window && j < rows && i < cols
    ensures Hit(front + [skipped] + back, window, threshold, rows, cols, j, i)
        <==> Hit(front + back, window, threshold, rows, cols, j, i)
  {
    var with := front + [skipped] + back;
    var without := front + back;
    if Hit(with, window, threshold, rows, cols, j, i) {
      var k :| 0 <= k < |with| && with[k].offset in window && Exceeds(with[k].refl[j][i], threshold);
      if k < |front| {
        assert with[k] == without[k];
      } else {
        assert with[k] == without[k - 1];
      }
    }
    if Hit(without, window, threshold, rows, cols, j, i) {
      var k :| 0 <= k < |without| && without[k].offset in window && Exceeds(without[k].refl[j][i], threshold);
      if k < |front| {
        assert without[k] == with[k];
      } else {
        assert without[k] == with[k + 1];
      }
    }
  }

  /** With no file in the window the event grid is all false. */
  lemma {:induction false} NoFileInWindow(recs: seq<TimedGrid>, window: seq<int>, threshold: real, rows: nat, cols: nat)
    requires AllShaped(recs, rows, cols)
    requires forall k :: 0 <= k < |recs| ==> recs[k].offset !in window
    ensures Aggregate(recs, window, threshold, rows, cols) == AllFalse(rows, cols)
  {
    var g := Aggregate(recs, window, threshold, rows, cols);
    forall j, i | 0 <= j < rows && 0 <= i < cols
      ensures g[j][i] == AllFalse(rows, cols)[j][i]
    {
      AggregateCell(recs, window, threshold, rows, cols, j, i);
    }
    GridExtensionality(g, AllFalse(rows, cols), rows, cols);
  }

  /** Matching a file against `runinitdate + timedelta(hours=w)` by hour
      offset is the `datetime` equality the source tests: `instant` is the
      window instant, the one valid `datetime` `w` hours after `init`. */
  lemma OffsetMatchIsDatetimeEquality(start: DateHour, init: DateHour, instant: DateHour, w: int)
    requires start.Valid() && init.Valid() && instant.Valid()
    requires HourOrdinal(instant) == HourOrdinal(init) + w
    ensures HourOrdinal(start) - HourOrdinal(init) == w <==> start == instant
  {
    HourOrdinalInjective(start, instant);
  }

  /** Every `STARTDATE` read as a `datetime`; the loop raises at the first
      one that does not read, so one unreadable file fails the whole call. */
  function ParseAll(files: seq<Store>): (r: Result<seq<DateHour>, DateError>)
    ensures r.Success? <==> forall k :: 0 <= k < |files| ==> ParseStartDate(files[k].startDate).Success?
    ensures r.Success? ==> |r.value| == |files|
    ensures r.Success? ==>
      forall k :: 0 <= k < |files| ==> Success(r.value[k]) == ParseStartDate(files[k].startDate)
    ensures r.Success? ==> forall k :: 0 <= k < |r.value| ==> r.value[k].Valid()
  {
    if forall k :: 0 <= k < |files| ==> ParseStartDate(files[k].startDate).Success? then
      Success(seq(|files|, k requires 0 <= k < |files| => ParseStartDate(files[k].startDate).value))
    else Failure(BadStartDate)
  }

  /** The grids of the event-grid inputs: every file has a first time entry,
      and its reflectivity has the shape of the first file's `XLONG`. */
  predicate WellShaped(files: seq<Store>) {
    && (forall k :: 0 <= k < |files| ==> |files[k].entries| > 0)
    && (|files| > 0 ==>
          && Rectangular(files[0].entries[0].xlong)
          && forall k :: 0 <= k < |files| ==> SameShape(files[0].entries[0].xlong, files[k].entries[0].refl))
  }

  /** Every window instant `init + w` hours is a representable `datetime`. */
  predicate WindowInRange(init: DateHour, window: seq<int>)
    requires init.Valid()
  {
    forall w :: w in window ==> HourInRange(HourOrdinal(init) + w)
  }

  /** A parsed `STARTDATE` is one of the window instants. */
  predicate InWindow(p: Result<DateHour, DateError>, init: DateHour, window: seq<int>)
    requires init.Valid()
  {
    p.Success? && p.value.Valid() && HourOrdinal(p.value) - HourOrdinal(init) in window
  }

  /** The file's `STARTDATE` reads as an instant inside the window. */
  predicate FileInWindow(f: Store, init: DateHour, window: seq<int>)
    requires init.Valid()
  {
    InWindow(ParseStartDate(f.startDate), init, window)
  }

  /** Each file as its start offset from `init` and its first reflectivity grid. */
  function Records(files: seq<Store>, starts: seq<DateHour>, init: DateHour): (recs: seq<TimedGrid>)
    requires init.Valid() && |starts| == |files|
    requires forall k :: 0 <= k < |starts| ==> starts[k].Valid()
    requires forall k :: 0 <= k < |files| ==> |files[k].entries| > 0
    ensures |recs| == |files|
    ensures forall k :: 0 <= k < |recs| ==>
      recs[k].offset == HourOrdinal(starts[k]) - HourOrdinal(init) && recs[k].refl == files[k].entries[0].refl
  {
    seq(|files|, k requires 0 <= k < |files| =>
        TimedGrid(HourOrdinal(starts[k]) - HourOrdinal(init), files[k].entries[0].refl))
  }

  /** An in-window file whose reflectivity has no cells: printing its
      maximum raises. */
  predicate EmptyInWindow(f: Store, init: DateHour, window: seq<int>)
    requires init.Valid() && |f.entries| > 0
  {
    FileInWindow(f, init, window) && NoCells(f.entries[0].refl)
  }

  /** What the loop does with one file: raise because its `STARTDATE` does
      not read, raise because it is in the window with an empty grid, or go
      on to the next file. */
  datatype FileOutcome = Unreadable | EmptyHit | Passes

  function Outcome(f: Store, init: DateHour, window: seq<int>): (o: FileOutcome)
    requires init.Valid() && |f.entries| > 0
    ensures o == Unreadable <==> ParseStartDate(f.startDate).Failure?
    ensures o == EmptyHit <==> EmptyInWindow(f, init, window)
  {
    if ParseStartDate(f.startDate).Failure? then Unreadable
    else if EmptyInWindow(f, init, window) then EmptyHit
    else Passes
  }

  function Outcomes(files: seq<Store>, init: DateHour, window: seq<int>): (o: seq<FileOutcome>)
    requires init.Valid() && forall k :: 0 <= k < |files| ==> |files[k].entries| > 0
    ensures |o| == |files|
    ensures forall k :: 0 <= k < |files| ==> o[k] == Outcome(files[k], init, window)
  {
    seq(|files|, k requires 0 <= k < |files| => Outcome(files[k], init, window))
  }

  /** The first position from `from` on at which the loop raises. */
  function FirstStop(outs: seq<FileOutcome>, from: nat): (r: Option<nat>)
    ensures r.Some? ==>
      && from <= r.value < |outs|
      && outs[r.value] != Passes
      && forall m :: from <= m < r.value ==> outs[m] == Passes
    ensures r.None? ==> forall m :: from <= m < |outs| ==> outs[m] == Passes
    decreases |outs| - from
  {
    if from >= |outs| then None
    else if outs[from] != Passes then Some(from)
    else FirstStop(outs, from + 1)
  }

  /** The loop stops at an unreadable `STARTDATE` exactly when there is one
      with no empty in-window grid before it. */
  lemma FirstStopUnreadable(outs: seq<FileOutcome>)
    ensures
      (FirstStop(outs, 0).Some? && outs[FirstStop(outs, 0).value] == Unreadable)
      <==>
      exists k :: 0 <= k < |outs| && outs[k] == Unreadable && forall m :: 0 <= m < k ==> outs[m] != EmptyHit
  {
    if exists k :: 0 <= k < |outs| && outs[k] == Unreadable && forall m :: 0 <= m < k ==> outs[m] != EmptyHit {
      var k :| 0 <= k < |outs| && outs[k] == Unreadable && forall m :: 0 <= m < k ==> outs[m] != EmptyHit;
      assert FirstStop(outs, 0).Some? && FirstStop(outs, 0).value <= k;
    }
  }

  /** The loop stops at an empty in-window grid exactly when there is one
      with every `STARTDATE` before it readable. */
  lemma FirstStopEmpty(outs: seq<FileOutcome>)
    ensures
      (FirstStop(outs, 0).Some? && outs[FirstStop(outs, 0).value] == EmptyHit)
      <==>
      exists k :: 0 <= k < |outs| && outs[k] == EmptyHit && forall m :: 0 <= m < k ==> outs[m] != Unreadable
  {
    if exists k :: 0 <= k < |outs| && outs[k] == EmptyHit && forall m :: 0 <= m < k ==> outs[m] != Unreadable {
      var k :| 0 <= k < |outs| && outs[k] == EmptyHit && forall m :: 0 <= m < k ==> outs[m] != Unreadable;
      assert FirstStop(outs, 0).Some? && FirstStop(outs, 0).value <= k;
    }
  }

  /** When the loop never raises, every `STARTDATE` reads. */
  lemma NoStopParses(files: seq<Store>, init: DateHour, window: seq<int>)
    requires init.Valid() && forall k :: 0 <= k < |files| ==> |files[k].entries| > 0
    requires FirstStop(Outcomes(files, init, window), 0).None?
    ensures ParseAll(files).Success?
  {
    var outs := Outcomes(files, init, window);
    forall k | 0 <= k < |files|
      ensures ParseStartDate(files[k].startDate).Success?
    {
      assert outs[k] == Passes;
    }
  }

  /** The loop over the files: it raises at the first file whose
      `STARTDATE` does not read or that is in the window with an empty grid,
      and otherwise has read every file's start instant. */
  function ScanFiles(files: seq<Store>, init: DateHour, window: seq<int>): (r: Result<seq<DateHour>, EventGridError>)
    requires init.Valid() && forall k :: 0 <= k < |files| ==> |files[k].entries| > 0
    ensures r.Failure? ==> r.error == UnreadableStartDate || r.error == EmptyReflectivity
    ensures r.Success? <==> forall k :: 0 <= k < |files| ==> Outcome(files[k], init, window) == Passes
    ensures r.Success? ==> ParseAll(files) == Success(r.value)
  {
    var outs := Outcomes(files, init, window);
    match FirstStop(outs, 0)
    case Some(k) =>
      if outs[k] == Unreadable then Failure(UnreadableStartDate)
      else Failure(EmptyReflectivity)
    case None =>
      NoStopParses(files, init, window);
      Success(ParseAll(files).value)
  }

  /** The scan raises for an unreadable `STARTDATE` exactly when some file's
      does not read and no earlier file is in the window with an empty grid. */
  lemma ScanUnreadable(files: seq<Store>, init: DateHour, window: seq<int>)
    requires init.Valid() && forall k :: 0 <= k < |files| ==> |files[k].entries| > 0
    ensures ScanFiles(files, init, window) == Failure(UnreadableStartDate) <==>
      exists k :: 0 <= k < |files| && Outcome(files[k], init, window) == Unreadable
                && forall m :: 0 <= m < k ==> Outcome(files[m], init, window) != EmptyHit
  {
    FirstStopUnreadable(Outcomes(files, init, window));
  }

  /** The scan raises for an empty in-window grid exactly when some file is
      in the window with an empty grid and every earlier `STARTDATE` reads. */
  lemma ScanEmpty(files: seq<Store>, init: DateHour, window: seq<int>)
    requires init.Valid() && forall k :: 0 <= k < |files| ==> |files[k].entries| > 0
    ensures ScanFiles(files, init, window) == Failure(EmptyReflectivity) <==>
      exists k :: 0 <= k < |files| && Outcome(files[k], init, window) == EmptyHit
                && forall m :: 0 <= m < k ==> Outcome(files[m], init, window) != Unreadable
  {
    FirstStopEmpty(Outcomes(files, init, window));
  }

  /** `reflectivity_to_eventgrid(files, runinitdate, sixhr, rtime, threshold)`.
      After the list and window checks, the scan of the files decides
      between its two `ValueError`s and the event grid. */
  function ReflectivityToEventGrid(files: seq<Store>, init: DateHour, sixhr: bool, rtime: int,
                                   threshold: real): (r: Result<Grid<bool>, EventGridError>)
    requires init.Valid() && WellShaped(files)
    ensures |files| == 0 <==> r == Failure(NoFiles)
    ensures r == Failure(DateOverflow) <==>
      |files| > 0 && !WindowInRange(init, ResponseWindow(sixhr, rtime))
    ensures |files| > 0 && WindowInRange(init, ResponseWindow(sixhr, rtime)) ==>
      && (r.Success? <==> forall k :: 0 <= k < |files| ==> Outcome(files[k], init, ResponseWindow(sixhr, rtime)) == Passes)
      && (r.Failure? ==> Failure(r.error) == ScanFiles(files, init, ResponseWindow(sixhr, rtime)))
    ensures r.Success? ==>
      IsGrid(r.value, |files[0].entries[0].xlong|, Cols(files[0].entries[0].xlong))
  {
    if |files| == 0 then Failure(NoFiles)
    else
      var window := ResponseWindow(sixhr, rtime);
      if !WindowInRange(init, window) then Failure(DateOverflow)
      else
        match ScanFiles(files, init, window)
        case Failure(e) => Failure(e)
        case Success(starts) =>
          var rows := |files[0].entries[0].xlong|;
          var cols := Cols(files[0].entries[0].xlong);
          Success(Aggregate(Records(files, starts, init), window, threshold, rows, cols))
  }

  /** The event grid raises `ValueError` for an unreadable `STARTDATE`
      exactly when the list and window checks pass, some file's `STARTDATE`
      does not read, and no file before it is in the window with an empty
      grid. */
  lemma EventGridUnreadable(files: seq<Store>, init: DateHour, sixhr: bool, rtime: int, threshold: real)
    requires init.Valid() && WellShaped(files)
    ensures ReflectivityToEventGrid(files, init, sixhr, rtime, threshold) == Failure(UnreadableStartDate) <==>
      && |files| > 0
      && WindowInRange(init, ResponseWindow(sixhr, rtime))
      && exists k :: 0 <= k < |files| && ParseStartDate(files[k].startDate).Failure?
                   && forall m :: 0 <= m < k ==> !EmptyInWindow(files[m], init, ResponseWindow(sixhr, rtime))
  {
    if |files| > 0 && WindowInRange(init, ResponseWindow(sixhr, rtime)) {
      ScanUnreadable(files, init, ResponseWindow(sixhr, rtime));
    }
  }

  /** The event grid raises `ValueError` from `np.nanmax` exactly when the
      list and window checks pass and some file lies in the window with a
      grid that has no cells, every `STARTDATE` before it reading. */
  lemma EventGridEmptyReflectivity(files: seq<Store>, init: DateHour, sixhr: bool, rtime: int, threshold: real)
    requires init.Valid() && WellShaped(files)
    ensures ReflectivityToEventGrid(files, init, sixhr, rtime, threshold) == Failure(EmptyReflectivity) <==>
      && |files| > 0
      && WindowInRange(init, ResponseWindow(sixhr, rtime))
      && exists k :: 0 <= k < |files| && EmptyInWindow(files[k], init, ResponseWindow(sixhr, rtime))
                   && forall m :: 0 <= m < k ==> ParseStartDate(files[m].startDate).Success?
  {
    if |files| > 0 && WindowInRange(init, ResponseWindow(sixhr, rtime)) {
      ScanEmpty(files, init, ResponseWindow(sixhr, rtime));
    }
  }

  /** Whether a file is in the window depends only on the instant its
      `STARTDATE` reads as. */
  lemma FileInWindowParsed(f: Store, d: DateHour, init: DateHour, window: seq<int>)
    requires init.Valid() && ParseStartDate(f.startDate) == Success(d)
    ensures FileInWindow(f, init, window) == InWindow(Success(d), init, window)
  {
  }

  lemma OffsetInWindow(d: DateHour, r: TimedGrid, init: DateHour, window: seq<int>)
    requires init.Valid() && d.Valid()
    requires r.offset == HourOrdinal(d) - HourOrdinal(init)
    ensures r.offset in window <==> InWindow(Success(d), init, window)
  {
  }

  /** A record is in the window exactly when its file's `STARTDATE` is. */
  lemma RecordInWindow(f: Store, d: DateHour, r: TimedGrid, init: DateHour, window: seq<int>)
    requires init.Valid() && d.Valid() && ParseStartDate(f.startDate) == Success(d)
    requires r.offset == HourOrdinal(d) - HourOrdinal(init)
    ensures r.offset in window <==> FileInWindow(f, init, window)
  {
    FileInWindowParsed(f, d, init, window);
    OffsetInWindow(d, r, init, window);
  }

  /** On success the event grid is the fold over the files' records. */
  lemma EventGridIsAggregate(files: seq<Store>, init: DateHour, sixhr: bool, rtime: int, threshold: real)
    requires init.Valid() && WellShaped(files)
    requires ReflectivityToEventGrid(files, init, sixhr, rtime, threshold).Success?
    ensures ParseAll(files).Success?
    ensures AllShaped(Records(files, ParseAll(files).value, init),
                      |files[0].entries[0].xlong|, Cols(files[0].entries[0].xlong))
    ensures ReflectivityToEventGrid(files, init, sixhr, rtime, threshold).value
         == Aggregate(Records(files, ParseAll(files).value, init), ResponseWindow(sixhr, rtime), threshold,
                      |files[0].entries[0].xlong|, Cols(files[0].entries[0].xlong))
  {
    var window := ResponseWindow(sixhr, rtime);
    assert |files| > 0 && WindowInRange(init, window);
    var scan := ScanFiles(files, init, window);
    assert scan.Success?;
    assert ParseAll(files) == Success(scan.value);
  }

  /** Record `k` carries file `k`'s grid, and is in the window exactly when
      the file is. */
  lemma RecordOfFile(files: seq<Store>, init: DateHour, window: seq<int>, k: nat)
    requires init.Valid() && WellShaped(files) && ParseAll(files).Success? && k < |files|
    ensures Records(files, ParseAll(files).value, init)[k].refl == files[k].entries[0].refl
    ensures Records(files, ParseAll(files).value, init)[k].offset in window <==> FileInWindow(files[k], init, window)
  {
    var starts := ParseAll(files).value;
    RecordInWindow(files[k], starts[k], Records(files, starts, init)[k], init, window);
  }

  /** A hit of the records is a hit of an in-window file. */
  lemma RecordsHitSound(files: seq<Store>, init: DateHour, window: seq<int>, threshold: real,
                        rows: nat, cols: nat, j: nat, i: nat)
    requires init.Valid() && WellShaped(files) && ParseAll(files).Success?
    requires AllShaped(Records(files, ParseAll(files).value, init), rows, cols) && j < rows && i < cols
    requires Hit(Records(files, ParseAll(files).value, init), window, threshold, rows, cols, j, i)
    ensures exists k :: 0 <= k < |files| && FileInWindow(files[k], init, window)
                                        && Exceeds(files[k].entries[0].refl[j][i], threshold)
  {
    var recs := Records(files, ParseAll(files).value, init);
    var k :| 0 <= k < |recs| && recs[k].offset in window && Exceeds(recs[k].refl[j][i], threshold);
    RecordOfFile(files, init, window, k);
  }

  /** An in-window file above the threshold makes the records hit. */
  lemma RecordsHitComplete(files: seq<Store>, init: DateHour, window: seq<int>, threshold: real,
                           rows: nat, cols: nat, j: nat, i: nat, k: nat)
    requires init.Valid() && WellShaped(files) && ParseAll(files).Success?
    requires AllShaped(Records(files, ParseAll(files).value, init), rows, cols) && j < rows && i < cols
    requires k < |files| && FileInWindow(files[k], init, window)
    requires Exceeds(files[k].entries[0].refl[j][i], threshold)
    ensures Hit(Records(files, ParseAll(files).value, init), window, threshold, rows, cols, j, i)
  {
    RecordOfFile(files, init, window, k);
  }

  /** The event grid marks `(j, i)` exactly when some file whose `STARTDATE`
      lies in the window has reflectivity above the threshold at `(j, i)`. */
  lemma ReflectivityToEventGridCell(files: seq<Store>, init: DateHour, sixhr: bool, rtime: int,
                                    threshold: real, j: nat, i: nat)
    requires init.Valid() && WellShaped(files)
    requires ReflectivityToEventGrid(files, init, sixhr, rtime, threshold).Success?
    requires j < |files[0].entries[0].xlong| && i < Cols(files[0].entries[0].xlong)
    ensures ReflectivityToEventGrid(files, init, sixhr, rtime, threshold).value[j][i] <==>
      exists k :: 0 <= k < |files| && FileInWindow(files[k], init, ResponseWindow(sixhr, rtime))
                                  && Exceeds(files[k].entries[0].refl[j][i], threshold)
  {
    var window := ResponseWindow(sixhr, rtime);
    var rows := |files[0].entries[0].xlong|;
    var cols := Cols(files[0].entries[0].xlong);
    EventGridIsAggregate(files, init, sixhr, rtime, threshold);
    AggregateCell(Records(files, ParseAll(files).value, init), window, threshold, rows, cols, j, i);
    if Hit(Records(files, ParseAll(files).value, init), window, threshold, rows, cols, j, i) {
      RecordsHitSound(files, init, window, threshold, rows, cols, j, i);
    }
    if exists k :: 0 <= k < |files| && FileInWindow(files[k], init, window)
                                    && Exceeds(files[k].entries[0].refl[j][i], threshold) {
      var k :| 0 <= k < |files| && FileInWindow(files[k], init, window)
                               && Exceeds(files[k].entries[0].refl[j][i], threshold);
      RecordsHitComplete(files, init, window, threshold, rows, cols, j, i, k);
    }
  }
}

=== FILE: time_series.dfy ===
/**
 The interpolated-GridRad output file as a value: a sequence of time
 entries along the unlimited `Time` dimension, each holding the
 reflectivity grid, per-time copies of the target grid's `XLONG` and `XLAT`,
 and the level `zlev`; plus the single file attribute `STARTDATE`. A call of
 the interpolator either creates the file with one entry or appends one at
 the next time index, and in both cases overwrites `STARTDATE`.
 */
module TimeSeries {
  import opened Base
  import opened Volume

  /** One index of the `Time` dimension. */
  datatype Entry = Entry(refl: Grid<Cell>, xlong: Grid<real>, xlat: Grid<real>, zlev: int)

  /** The contents of an output file. */
  datatype Store = Store(entries: seq<Entry>, startDate: string)

  /** The target (WRF) grid: `XLONG[0]` and `XLAT[0]` of the reference file. */
  datatype TargetGrid = TargetGrid(xlong: Grid<real>, xlat: Grid<real>)

  /** Write one entry: `out` is `None` when the output path does not exist.
      A new file gets the entry at time index 0; an existing one gets it at
      index `n`, its current length, with the earlier entries untouched.
      Either way `STARTDATE` becomes `datehour`. */
  function AppendOrCreate(out: Option<Store>, e: Entry, datehour: string): (r: Store)
    ensures r.startDate == datehour
    ensures out.None? ==> |r.entries| == 1 && r.entries[0] == e
    ensures out.Some? ==>
      var n := |out.value.entries|;
      && |r.entries| == n + 1
      && r.entries[n] == e
      && r.entries[..n] == out.value.entries
  {
    match out
    case None => Store([e], datehour)
    case Some(s) => Store(s.entries + [e], datehour)
  }

  /** A sequence of calls on one output path, starting from `out`. */
  function Replay(out: Option<Store>, calls: seq<(Entry, string)>): Option<Store>
    decreases |calls|
  {
    if |calls| == 0 then out
    else Some(AppendOrCreate(Replay(out, calls[..|calls| - 1]), calls[|calls| - 1].0, calls[|calls| - 1].1))
  }

  /** Calls on a fresh path build the file entry by entry in call order, and
      only the last call's `datehour` survives as `STARTDATE`. */
  lemma {:induction false} ReplayFromNothing(calls: seq<(Entry, string)>)
    requires |calls| > 0
    ensures Replay(None, calls).Some?
    ensures |Replay(None, calls).value.entries| == |calls|
    ensures forall k :: 0 <= k < |calls| ==> Replay(None, calls).value.entries[k] == calls[k].0
    ensures Replay(None, calls).value.startDate == calls[|calls| - 1].1
    decreases |calls|
  {
    if |calls| > 1 {
      ReplayFromNothing(calls[..|calls| - 1]);
    }
  }

  /** Per-entry start times are not kept: two call histories with the same
      entries and the same final `datehour` leave identical files. */
  lemma {:induction false} EarlierStartDatesAreLost(calls1: seq<(Entry, string)>, calls2: seq<(Entry, string)>)
    requires |calls1| == |calls2| > 0
    requires forall k :: 0 <= k < |calls1| ==> calls1[k].0 == calls2[k].0
    requires calls1[|calls1| - 1].1 == calls2[|calls2| - 1].1
    ensures Replay(None, calls1) == Replay(None, calls2)
  {
    ReplayFromNothing(calls1);
    ReplayFromNothing(calls2);
    assert Replay(None, calls1).value.entries == Replay(None, calls2).value.entries;
  }

  /** Why a call of the interpolator raises before anything is written:
      the level slice fails (`IndexError`), `np.nanmax` is asked for the
      maximum of a level or of an interpolated grid without cells
      (`ValueError`), or the interpolator itself raises (scipy's `QhullError`
      on source points that span no triangle, for instance). */
  datatype StoreError = SliceFailed(cause: VolumeError) | EmptyLevel | InterpolationFailed | EmptyInterpolation

  /** The second half of `horiz_interp_and_store_gridrad`, once the level
      is sliced: print its maximum, interpolate it with `interp` (`None` when
      the interpolator raises), print the maximum of the result, and append
      that result with the target coordinates and `zlev`. */
  function StoreLevel(out: Option<Store>, level: Grid<Cell>, datehour: string, target: TargetGrid,
                      zlev: int, interp: Grid<Cell> -> Option<Grid<Cell>>): (r: Result<Store, StoreError>)
    ensures r == Failure(EmptyLevel) <==> NoCells(level)
    ensures r == Failure(InterpolationFailed) <==> !NoCells(level) && interp(level).None?
    ensures r == Failure(EmptyInterpolation) <==>
      !NoCells(level) && interp(level).Some? && NoCells(interp(level).value)
    ensures r.Failure? ==> !r.error.SliceFailed?
    ensures r.Success? ==>
      var n := if out.None? then 0 else |out.value.entries|;
      && interp(level).Some? && !NoCells(interp(level).value)
      && r.value.startDate == datehour
      && |r.value.entries| == n + 1
      && (out.Some? ==> r.value.entries[..n] == out.value.entries)
      && r.value.entries[n] == Entry(interp(level).value, target.xlong, target.xlat, zlev)
  {
    if NoCells(level) then Failure(EmptyLevel)
    else
      match interp(level)
      case None => Failure(InterpolationFailed)
      case Some(grid) =>
        if NoCells(grid) then Failure(EmptyInterpolation)
        else Success(AppendOrCreate(out, Entry(grid, target.xlong, target.xlat, zlev), datehour))
  }

  /** `horiz_interp_and_store_gridrad`: slice level `zlev` out of the sparse
      volume, print its maximum, interpolate it onto the target grid with
      `interp` (the triangulation-based interpolator with both grids fixed;
      `None` when it raises), print the maximum of the result, and append
      that result with the target coordinates and `zlev`. Every failure
      happens before the output file is opened, so nothing is written. */
  function HorizInterpAndStore(out: Option<Store>, src: GridRadSource, target: TargetGrid,
                               zlev: int, interp: Grid<Cell> -> Option<Grid<Cell>>): (r: Result<Store, StoreError>)
    requires |src.index| == |src.reflectivity|
    requires DistinctPositions(src.index, |src.altitude| * (|src.latitude| * |src.longitude|))
    ensures ReflectivityLevel(src, zlev).Failure? ==> r == Failure(SliceFailed(ReflectivityLevel(src, zlev).error))
    ensures ReflectivityLevel(src, zlev).Success? ==>
      var level := ReflectivityLevel(src, zlev).value;
      && (r == Failure(EmptyLevel) <==> |src.latitude| == 0 || |src.longitude| == 0)
      && (r == Failure(InterpolationFailed) <==>
            |src.latitude| > 0 && |src.longitude| > 0 && interp(level).None?)
      && (r == Failure(EmptyInterpolation) <==>
            |src.latitude| > 0 && |src.longitude| > 0 && interp(level).Some? && NoCells(interp(level).value))
    ensures r.Success? ==>
      var n := if out.None? then 0 else |out.value.entries|;
      var level := ReflectivityLevel(src, zlev).value;
      && ReflectivityLevel(src, zlev).Success?
      && interp(level).Some? && !NoCells(interp(level).value)
      && r.value.startDate == src.datehour
      && |r.value.entries| == n + 1
      && (out.Some? ==> r.value.entries[..n] == out.value.entries)
      && r.value.entries[n] == Entry(interp(level).value, target.xlong, target.xlat, zlev)
  {
    match ReflectivityLevel(src, zlev)
    case Failure(e) => Failure(SliceFailed(e))
    case Success(level) =>
      NoCellsOfShape(level, |src.latitude|, |src.longitude|);
      StoreLevel(out, level, src.datehour, target, zlev, interp)
  }

  /** The file's first time entry holds a reflectivity grid shaped like its
      `XLONG`: what the event-grid builder reads from every file. */
  predicate FirstEntryShaped(s: Store) {
    |s.entries| > 0 && SameShape(s.entries[0].xlong, s.entries[0].refl)
  }

  /** Writing never touches an existing first entry, and a new file's first
      entry is shaped like `XLONG` when the interpolator returns a grid of
      the target's shape; so every file the writer produces keeps the shape
      the event-grid builder needs. Whether different files share one target
      grid is up to the caller. */
  lemma WriterKeepsFirstEntryShaped(out: Option<Store>, src: GridRadSource, target: TargetGrid,
                                    zlev: int, interp: Grid<Cell> -> Option<Grid<Cell>>)
    requires |src.index| == |src.reflectivity|
    requires DistinctPositions(src.index, |src.altitude| * (|src.latitude| * |src.longitude|))
    requires HorizInterpAndStore(out, src, target, zlev, interp).Success?
    requires out.Some? ==> FirstEntryShaped(out.value)
    requires out.None? ==>
      && Rectangular(target.xlong)
      && IsGrid(interp(ReflectivityLevel(src, zlev).value).value, |target.xlong|, Cols(target.xlong))
    ensures FirstEntryShaped(HorizInterpAndStore(out, src, target, zlev, interp).value)
    ensures out.Some? ==> HorizInterpAndStore(out, src, target, zlev, interp).value.entries[0] == out.value.entries[0]
  {
    var r := HorizInterpAndStore(out, src, target, zlev, interp).value;
    if out.Some? {
      var n := |out.value.entries|;
      assert r.entries[..n][0] == r.entries[0];
    }
  }
}

=== FILE: volume.dfy ===
/**
 Reconstruction of the dense GridRad reflectivity volume. The file stores
 reflectivity sparsely: `Reflectivity[k]` belongs at flat position
 `index[k]` of an `(Altitude, Latitude, Longitude)` volume laid out
 row-major. The interpolator fills a NaN array of the full size, scatters
 the stored values into it, reshapes it to three dimensions and takes one
 altitude level.
 */
module Volume {
  import opened Base

  /** Both failures are `IndexError` in numpy: a stored position outside the
      flat volume, or a level outside the altitude axis. */
  datatype VolumeError = IndexOutOfRange | LevelOutOfRange

  /** The sparse GridRad fields the interpolator reads. Only the lengths of
      the coordinate axes matter for the volume; the coordinate values go to
      the interpolator untouched. */
  datatype GridRadSource = GridRadSource(
    altitude: seq<real>,
    latitude: seq<real>,
    longitude: seq<real>,
    reflectivity: seq<Cell>,
    index: seq<int>,
    datehour: string)

  /** numpy accepts an index `k` into an axis of length `n` when `-n <= k < n`. */
  predicate InBounds(k: int, n: nat) {
    -(n as int) <= k < n
  }

  /** The position numpy addresses with index `k`: negative indices count
      from the end. */
  function Normalize(k: int, n: nat): (p: int)
    requires InBounds(k, n)
    ensures 0 <= p < n
    ensures p == k % n
    ensures k >= 0 ==> p == k
  {
    if k < 0 then k + n else k
  }

  /** No two stored values are written to the same position. numpy leaves the
      outcome of a repeated position in a fancy assignment unspecified, so
      the model only covers files without repeats. */
  predicate DistinctPositions(index: seq<int>, n: nat) {
    forall k, k' :: 0 <= k < k' < |index| && InBounds(index[k], n) && InBounds(index[k'], n) ==>
      Normalize(index[k], n) != Normalize(index[k'], n)
  }

  predicate AllInBounds(index: seq<int>, n: nat) {
    forall k :: 0 <= k < |index| ==> InBounds(index[k], n)
  }

  /** `flat[index] = values`: every `values[k]` lands at position `index[k]`
      and every other position keeps its old content. */
  function Scatter<T>(flat: seq<T>, index: seq<int>, values: seq<T>): (r: seq<T>)
    requires |index| == |values|
    requires AllInBounds(index, |flat|) && DistinctPositions(index, |flat|)
    ensures |r| == |flat|
    ensures forall k :: 0 <= k < |index| ==> r[Normalize(index[k], |flat|)] == values[k]
    ensures forall p :: 0 <= p < |flat| && (forall k :: 0 <= k < |index| ==> Normalize(index[k], |flat|) != p) ==>
      r[p] == flat[p]
    decreases |index|
  {
    if |index| == 0 then flat
    else
      var n := |index| - 1;
      var prefix := Scatter(flat, index[..n], values[..n]);
      prefix[Normalize(index[n], |flat|) := values[n]]
  }

  /** The row-major position of cell `(j, i)` of an array with rows of `w`. */
  function RowMajor(j: nat, i: nat, w: nat): nat {
    j * w + i
  }

  lemma MulLeftMonotone(a: nat, b: nat, w: nat)
    requires a <= b
    ensures a * w <= b * w
  {
  }

  /** The row-major position of cell `(j, i)` of an `n` by `w` array is in range. */
  lemma RowMajorInRange(j: nat, i: nat, n: nat, w: nat)
    requires j < n && i < w
    ensures RowMajor(j, i, w) < n * w
  {
    MulLeftMonotone(j + 1, n, w);
  }

  /** One row further down is `w` positions further on. */
  lemma RowMajorStep(j: nat, i: nat, w: nat)
    requires j > 0
    ensures RowMajor(j, i, w) == RowMajor(j - 1, i, w) + w
  {
  }

  lemma DropRow(n: nat, w: nat)
    requires n > 0
    ensures n * w - w == (n - 1) * w
  {
  }

  /** `flat.reshape((n, w))`: `n` rows of `w` consecutive elements. */
  function Chunk<T>(flat: seq<T>, n: nat, w: nat): (r: seq<seq<T>>)
    requires |flat| == n * w
    ensures IsGrid(r, n, w)
    decreases n
  {
    if n == 0 then []
    else
      DropRow(n, w);
      [flat[..w]] + Chunk(flat[w..], n - 1, w)
  }

  /** Cell `(j, i)` of the reshaped array is element `j * w + i` of the buffer. */
  lemma {:induction false} ChunkCell<T>(flat: seq<T>, n: nat, w: nat, j: nat, i: nat)
    requires |flat| == n * w && j < n && i < w
    ensures RowMajor(j, i, w) < |flat| && Chunk(flat, n, w)[j][i] == flat[RowMajor(j, i, w)]
    decreases n
  {
    RowMajorInRange(j, i, n, w);
    DropRow(n, w);
    if j > 0 {
      var rest := flat[w..];
      ChunkCell(rest, n - 1, w, j - 1, i);
      RowMajorStep(j, i, w);
      assert Chunk(flat, n, w)[j] == Chunk(rest, n - 1, w)[j - 1];
    } else {
      assert Chunk(flat, n, w)[0] == flat[..w];
    }
  }

  /** The rows of a grid laid end to end. */
  function Flatten<T>(rows: seq<seq<T>>): seq<T> {
    if |rows| == 0 then [] else rows[0] + Flatten(rows[1..])
  }

  /** Reshaping does not move data: flattening the rows gives the buffer back. */
  lemma {:induction false} ChunkFlatten<T>(flat: seq<T>, n: nat, w: nat)
    requires |flat| == n * w
    ensures Flatten(Chunk(flat, n, w)) == flat
    decreases n
  {
    if n > 0 {
      DropRow(n, w);
      ChunkFlatten(flat[w..], n - 1, w);
      assert Chunk(flat, n, w)[1..] == Chunk(flat[w..], n - 1, w);
    }
  }

  /** `flat.reshape((nAlt, nLat, nLon))` in C order: the buffer cut into
      `nAlt` levels of `nLat * nLon` elements, each cut into rows. */
  function Reshape3<T>(flat: seq<T>, nAlt: nat, nLat: nat, nLon: nat): (r: seq<Grid<T>>)
    requires |flat| == nAlt * (nLat * nLon)
    ensures |r| == nAlt && forall a :: 0 <= a < nAlt ==> IsGrid(r[a], nLat, nLon)
  {
    var levels := Chunk(flat, nAlt, nLat * nLon);
    seq(nAlt, a requires 0 <= a < nAlt => Chunk(levels[a], nLat, nLon))
  }

  /** Cell `(a, j, i)` of the volume is element `a*nLat*nLon + j*nLon + i`. */
  lemma Reshape3Cell<T>(flat: seq<T>, nAlt: nat, nLat: nat, nLon: nat, a: nat, j: nat, i: nat)
    requires |flat| == nAlt * (nLat * nLon)
    requires a < nAlt && j < nLat && i < nLon
    ensures RowMajor(a, RowMajor(j, i, nLon), nLat * nLon) < |flat|
    ensures Reshape3(flat, nAlt, nLat, nLon)[a][j][i] == flat[RowMajor(a, RowMajor(j, i, nLon), nLat * nLon)]
  {
    var levels := Chunk(flat, nAlt, nLat * nLon);
    ChunkCell(levels[a], nLat, nLon, j, i);
    RowMajorInRange(j, i, nLat, nLon);
    ChunkCell(flat, nAlt, nLat * nLon, a, RowMajor(j, i, nLon));
  }

  /** Flattening every level and then the levels restores the buffer. */
  lemma Reshape3Flatten<T>(flat: seq<T>, nAlt: nat, nLat: nat, nLon: nat)
    requires |flat| == nAlt * (nLat * nLon)
    ensures Flatten(seq(nAlt, a requires 0 <= a < nAlt => Flatten(Reshape3(flat, nAlt, nLat, nLon)[a]))) == flat
  {
    var levels := Chunk(flat, nAlt, nLat * nLon);
    var vol := Reshape3(flat, nAlt, nLat, nLon);
    forall a | 0 <= a < nAlt
      ensures Flatten(vol[a]) == levels[a]
    {
      ChunkFlatten(levels[a], nLat, nLon);
    }
    assert seq(nAlt, a requires 0 <= a < nAlt => Flatten(vol[a])) == levels;
    ChunkFlatten(flat, nAlt, nLat * nLon);
  }

  /** The all-NaN volume with the stored values scattered in (the source's
      `np.zeros(n) * np.NaN` followed by `og_refl_vals[index] = Reflectivity`). */
  function DenseVolume(src: GridRadSource): (r: Result<seq<Cell>, VolumeError>)
    requires |src.index| == |src.reflectivity|
    requires DistinctPositions(src.index, |src.altitude| * (|src.latitude| * |src.longitude|))
    ensures r.Failure? <==> !AllInBounds(src.index, |src.altitude| * (|src.latitude| * |src.longitude|))
    ensures r.Success? ==>
      var n := |src.altitude| * (|src.latitude| * |src.longitude|);
      && |r.value| == n
      && (forall k :: 0 <= k < |src.index| ==> r.value[Normalize(src.index[k], n)] == src.reflectivity[k])
      && (forall p :: 0 <= p < n && (forall k :: 0 <= k < |src.index| ==> Normalize(src.index[k], n) != p) ==>
            r.value[p] == None)
  {
    var n := |src.altitude| * (|src.latitude| * |src.longitude|);
    if !AllInBounds(src.index, n) then Failure(IndexOutOfRange)
    else Success(Scatter(seq(n, _ => None), src.index, src.reflectivity))
  }

  /** The reflectivity at altitude level `zlev` (numpy `[zlev, :, :]`, so a
      negative level counts from the top) as a `(Latitude, Longitude)` grid. */
  function ReflectivityLevel(src: GridRadSource, zlev: int): (r: Result<Grid<Cell>, VolumeError>)
    requires |src.index| == |src.reflectivity|
    requires DistinctPositions(src.index, |src.altitude| * (|src.latitude| * |src.longitude|))
    ensures DenseVolume(src).Failure? ==> r == Failure(IndexOutOfRange)
    ensures DenseVolume(src).Success? ==> (r.Failure? <==> !InBounds(zlev, |src.altitude|))
    ensures r.Success? ==> IsGrid(r.value, |src.latitude|, |src.longitude|)
  {
    match DenseVolume(src)
    case Failure(e) => Failure(e)
    case Success(flat) =>
      if !InBounds(zlev, |src.altitude|) then Failure(LevelOutOfRange)
      else Success(Reshape3(flat, |src.altitude|, |src.latitude|, |src.longitude|)[Normalize(zlev, |src.altitude|)])
  }

  /** The position in the flat volume of cell `(j, i)` of level `lev`. */
  function LevelPosition(src: GridRadSource, lev: nat, j: nat, i: nat): nat {
    RowMajor(lev, RowMajor(j, i, |src.longitude|), |src.latitude| * |src.longitude|)
  }

  /** Cell `(j, i)` of the level slice is element `zlev*nLat*nLon + j*nLon + i`
      of the dense volume: the stored value whose position that is, and NaN
      when nothing is stored there. */
  lemma ReflectivityLevelCell(src: GridRadSource, zlev: int, j: nat, i: nat)
    requires |src.index| == |src.reflectivity|
    requires DistinctPositions(src.index, |src.altitude| * (|src.latitude| * |src.longitude|))
    requires ReflectivityLevel(src, zlev).Success?
    requires j < |src.latitude| && i < |src.longitude|
    ensures DenseVolume(src).Success? && InBounds(zlev, |src.altitude|)
    ensures
      var n := |src.altitude| * (|src.latitude| * |src.longitude|);
      var pos := LevelPosition(src, Normalize(zlev, |src.altitude|), j, i);
      var cell := ReflectivityLevel(src, zlev).value[j][i];
      && pos < n
      && cell == DenseVolume(src).value[pos]
      && (forall k :: 0 <= k < |src.index| && Normalize(src.index[k], n) == pos ==> cell == src.reflectivity[k])
      && ((forall k :: 0 <= k < |src.index| ==> Normalize(src.index[k], n) != pos) ==> cell == None)
  {
    var flat := DenseVolume(src).value;
    Reshape3Cell(flat, |src.altitude|, |src.latitude|, |src.longitude|, Normalize(zlev, |src.altitude|), j, i);
  }
}
